=== FILE: README.md ===
# Interpreter reminder pipeline — Dafny model

This project models the small pure core of a daily interpreter-reminder
pipeline. The pipeline pulls the next day's confirmed appointments from a
scheduling service, finds each appointment's assigned interpreter, groups the
appointments into on-site and virtual reminders by interpreter email, and sends
them by SMS or e-mail. The model covers the parts whose behaviour can be stated
exactly once the network, clock and configuration become parameters:

- **Scheduling-service client** (`adastra_client.py`), in modules `AdAstra` and `Retry`:
  - the `APIError` diagnostic text, which cuts the body at 500 characters;
  - the response-envelope normaliser `_unwrap_items`;
  - URL joining, where absolute URLs pass through unchanged;
  - the token check after `login`;
  - the retry loop of `_request`. This is a loop over an abstract transport,
    a function from attempt number to a response or an exception. Sleeps are
    recorded as milliseconds.
- **Pipeline glue** (`main.py`), in module `Pipeline`:
  - the pagination sweep;
  - the first-match search for the assigned interpreter;
  - the interpreter's contact details and full name;
  - the filter, classify and group-by-email fold of `group_appointments`.
- **SMS client** (`textus_cleint.py`), in module `TextUs`:
  - US phone normalisation to E.164;
  - the English join of reminder times;
  - the early exit and conversation-id extraction of `send_reminder`.
- **Mail client** (`graph_client.py`), in module `Graph`: the token cache.
  A token is reused only while more than 60 seconds of it remain.

Support modules: `Wrappers` (Option/Result), `Json` (the JSON-like values, with
Python's `dict.get` and truthiness) and `Text` (Python's `strip`, digit
extraction, `join` and `str(int)` on ASCII text).

## Behaviour worth noting

- The retry loop retries every failure, not only 429 and 5xx. The "Request
  failed" error for other 4xx statuses and the missing-token error are raised
  inside the `try` (adastra_client.py:112-118), and the `except Exception`
  at line 124 catches them. `Retry.ClientErrorIsRetried` shows a 404 being
  retried.
- The error raised after the last retry has no status code and no body
  (adastra_client.py:131). The last status is visible only inside the message
  text, which embeds the last error's description.
- The pagination loop stops only on an empty page or one with fewer than 100
  items (main.py:68, 73). A page with more than 100 items does not stop it.
  The model therefore promises that every page before the last had *at least*
  100 items.

## Model

| member | source | states |
|---|---|---|
| AdAstra.Describe | adastra_client.py:18-24 | The diagnostic starts with the message. " [HTTP code]" follows exactly when a status code is present. It ends with " :: " and the first 500 characters of the body exactly when the body is non-empty. Its length is the sum of those parts. |
| AdAstra.DescribeCutsBody | adastra_client.py:22-23 | A body longer than 500 characters reads exactly like its first 500 characters. The diagnostic is never longer than message, status tag, " :: " and 500 characters together. |
| AdAstra.Preview | adastra_client.py:23 | The body preview is a prefix of the body. It is the whole body when that has at most 500 characters, and exactly the first 500 characters otherwise. |
| AdAstra.FirstListField | adastra_client.py:37-40 | Finds the first key, in the given order, whose value is a list. Earlier keys with non-list values are skipped. The result is None exactly when no key holds a list. |
| AdAstra.UnwrapItems | adastra_client.py:33-42 | A list comes back unchanged. A dict gives the list under the first list-valued key among data, results, items, or else the one-element list holding the dict. Anything else is the shape error, and only those inputs fail. |
| AdAstra.BaseUrl | adastra_client.py:63 | The stored base is a prefix of the configured URL. It does not end in '/'. Everything cut off was '/'. |
| AdAstra.JoinPath | adastra_client.py:91-94 | The joined URL starts with the base, has '/' right after it and ends with the path. It is one character longer than base plus path exactly when the path lacked a leading '/'. |
| AdAstra.JoinPathLeadingSlash | adastra_client.py:91-94 | Joining "x" and joining "/x" give the same URL. With an rstripped base, no "//" appears at the seam. |
| AdAstra.TargetUrl | adastra_client.py:106 | A target starting with "http" is used unchanged. Any other target gives the base, one '/' and the path: the URL starts with the base, has '/' right after it and ends with the path. It is one character longer than base plus path exactly when the path lacked a leading '/', so no "//" is added at the seam. |
| AdAstra.LoginToken | adastra_client.py:152-156 | Takes the retry loop's result. Login succeeds exactly when the request returned a JSON dict with a truthy "token", and returns that token. A failed request propagates its error. A non-JSON body or any other shape gives the missing-token error. |
| Retry.Classify | adastra_client.py:115-118 | A status is retryable exactly when it is 429 or at least 500. It is rejected exactly when it is another 4xx, and accepted exactly when it is below 400. |
| Retry.TryOnce | adastra_client.py:112-123 | Without usable headers the attempt fails with the not-authenticated error. A raised exception is a failure. A status below 400 is a success with the parsed JSON, or the raw text when there is none. Other statuses fail with the status and body. The message is "Retryable error" exactly for 429 and 5xx, and "Request failed" exactly for the other 4xx statuses. |
| Retry.Run | adastra_client.py:110-128 | At least one attempt is made and at most max_retries + 1. Exactly one sleep follows each attempt but the last. |
| Retry.RunSleeps | adastra_client.py:126-128 | The sleep after failed attempt i is backoff_base * 2^i plus that attempt's jitter. |
| Retry.RunMeaning | adastra_client.py:110-131 | Every attempt before the last one made failed. The call succeeds exactly when its last attempt succeeded, and returns that attempt's payload. A failure happens only after max_retries + 1 attempts and is the exhaustion error built from the last cause. |
| Retry.Attempts | adastra_client.py:109-131 | The imperative loop, with its early return, break and sleeps, computes exactly the outcome of Run. |
| Retry.Request | adastra_client.py:106-131 | Chooses the URL, then runs the loop. Sleeps number attempts - 1, which is at most max_retries. Each sleep lies between backoff_base * 2^i and 250 ms more. A failure comes after every allowed attempt and carries no status code. |
| Retry.SleepsBounded | adastra_client.py:128 | With jitter in [0, 250] ms, every sleep lies within its backoff window. A failed call made every allowed attempt and carries no status code. |
| Retry.Exhausted | adastra_client.py:131 | The exhaustion error's message starts with the verb and the URL and ends with " failed after retries: " followed by the last failure's text. That text is the last error's diagnostic, with its status tag and body preview, or the transport exception's message. The error itself has neither a status code nor a body. |
| Retry.BackoffDoubles | adastra_client.py:128 | The deterministic part of the delay doubles from one failed attempt to the next. |
| Retry.SuccessAfterFailures | adastra_client.py:110-128 | If the first k attempts fail and attempt k (k ≤ max_retries) succeeds, the call returns that payload. It makes k + 1 attempts and exactly k sleeps, the i-th being backoff_base * 2^i plus jitter. |
| Retry.ClientErrorIsRetried | adastra_client.py:117-128 | With at least one retry allowed, a 404 followed by a 200 succeeds on the second attempt after one sleep. |
| Retry.MissingTokenExhausts | adastra_client.py:112 | Without a token the loop never reaches the transport. It makes max_retries + 1 attempts and max_retries sleeps, then fails with the exhaustion error that wraps the not-authenticated error. |
| Retry.ExhaustionHidesStatus | adastra_client.py:130-131 | When every allowed attempt fails, the call fails after max_retries + 1 attempts. The error names the verb and URL and has no status code. |
| Pipeline.CollectAll | main.py:45-79 | Requests pages 1, 2, … in order, each of size 100, and nothing else. Every page before the last had at least 100 items. The last page was short or empty. The result is the in-order concatenation of the pages fetched. |
| Pipeline.FirstAssigned | main.py:37-40 | Finds the first row whose assignStatusName is "Assign". The result is None exactly when no row has that status. |
| Pipeline.AssignedIn | main.py:37-42 | The answer is the fK_Interpreter of the first "Assign" row, or None when there is no such row. |
| Pipeline.AssignedInterpreter | main.py:27-42 | A failed lookup, or one that returned a non-list, gives None. Over a list of rows, the answer is the fK_Interpreter of the row whose assignStatusName is "Assign" and that no earlier "Assign" row precedes. With no such row the answer is None. |
| Pipeline.FullName | main.py:22 | The name is stripped. A missing or blank part leaves just the other part, with no stray space. Two non-blank parts are joined by one space. |
| Pipeline.InterpreterDetails | main.py:12-24 | A failed account call gives no email, phone or name. Otherwise email and phone are read from the "data" member when the response has one, else from the response itself. The name is always a stripped string: the two stripped name parts joined by one space, or just the non-blank one, or "" when both are blank. |
| Pipeline.DataEnvelopeTransparent | main.py:19 | An account record that has no "data" key gives the same details whether it is returned bare or wrapped as {"data": record}. |
| Pipeline.Decide | main.py:86-135 | Given the appointment's assigned interpreter and that interpreter's details, the appointment is kept exactly when it is Confirmed, is not American Sign Language, the interpreter is truthy and the email is truthy. The entry carries that email, phone and name, and the appointment's code, start time, target language and communication type. It is virtual exactly when its communication type is not "oc". A virtual entry's link, number and pin are the appointment's values when those are truthy, and "NO LINK", "NO NUMBER" and "NO PIN" otherwise. |
| Pipeline.GroupIsFilter | main.py:82-138 | For every email, the virtual and the on-site list of `group_appointments` each hold exactly that interpreter's kept entries of that kind, in input order. That email is a key only with a non-empty list. |
| Pipeline.FoldIsFilter | main.py:82-138 | For every email, each group's list equals the in-order filter of kept entries of that kind under that email. |
| Pipeline.FoldKeysNonEmpty | main.py:135 | An email is a key of a group only if its list is non-empty. |
| Pipeline.GroupedEntriesAreEligible | main.py:92-135 | Every grouped entry comes from an eligible appointment. It sits in the group its communication type selects, under its interpreter's email. |
| TextUs.ToE164Us | textus_cleint.py:20-40 | A missing or empty phone gives None. A stripped input already of the form +1 followed by ten digits is returned as it is. Every result is +1 followed by ten ASCII digits. |
| TextUs.ToE164UsByDigits | textus_cleint.py:25-40 | Normalisation depends only on the input's digits. It succeeds exactly when there are ten digits, or eleven starting with 1. The result is "+1" followed by the last ten digits, so the E.164 shortcut agrees with the digit rule. |
| TextUs.ToE164UsIdempotent | textus_cleint.py:25-28 | Normalising a normalised number returns it unchanged. |
| TextUs.ToE164UsRejectsLetters | textus_cleint.py:30-40 | Text without digits ("abc") is not a phone number. |
| TextUs.JoinTimes | textus_cleint.py:44-59 | No items give "". One item gives that item. Two or more give the first n−1 joined by ", ", then " and ", then the last. |
| TextUs.JoinTimesKeepsOrder | textus_cleint.py:55-59 | Every item appears in the joined text at its own offset, in order. The text ends with " and " followed by the last item. |
| TextUs.FormatTimes | textus_cleint.py:43-59 | The text is empty exactly when there are no times, or one time that formats to "". One time gives its formatted form. Two or more give all but the last formatted time joined by ", ", then " and ", then the last formatted time. |
| TextUs.LastSegment | textus_cleint.py:83 | The conversation id is a suffix of the path and contains no '/'. It is preceded by '/' unless it is the whole path. |
| TextUs.SendReminder | textus_cleint.py:61-86 | Nothing is posted exactly when normalisation fails. When a post is made, it goes to the normalised number. A conversation id is returned exactly when the reply has status 201 and a non-empty string "conversation" path. It is then that path's last segment. |
| Graph.GetToken | graph_client.py:42-64 | The endpoint is called exactly when the cached token is missing, empty or has 60 seconds or less left. Otherwise the cached token is returned with the cache unchanged. A grant stores the token with expiry now + expires_in and returns it. A refused exchange leaves the cache as it was. |
| Graph.FirstCallExchanges | graph_client.py:13-15 | A new client (no token, expiry 0) always calls the endpoint on its first request. |
| Graph.CachedTokenReused | graph_client.py:46-47 | After a non-empty token is granted, calls made while more than 60 seconds of it remain make no exchange and leave the cache unchanged. |
| Graph.OneExchangeWhileValid | graph_client.py:42-64 | From a new client, a granted first call followed by calls inside the token's safety margin makes exactly one exchange in total. |
| Graph.Calls | graph_client.py:42-64 | A run of `get_token` calls counts its endpoint calls, at most one per call. A run that never calls the endpoint leaves the cache as it was. |
| Graph.RefreshNearExpiry | graph_client.py:46-62 | With 60 seconds or less left, a refresh happens even though a token is cached. If that refresh is refused, the cache is left intact. |
| Text.StripAroundSpace | main.py:22 | Stripping a + " " + b, where a and b are already stripped, drops the space exactly when a part is empty. |
| Text.ParseNatToString | adastra_client.py:21 | The decimal text of a status code reads back as the same number. |

## Left out

- HTTP transport (`requests.Session.request`, `requests.post/put`, `httpx.request`) is left out. It is replaced by abstract functions: the retry loop's attempt outcomes, the page fetcher, the interpreter and account lookups, the SMS post and the identity exchange.
- `time.sleep` is left out. Sleeps are returned as a list of milliseconds.
- `random.uniform(0, 0.25)` becomes a jitter function in whole milliseconds. The 0..250 ms bound is a precondition of `Retry.Request`, not a random draw.
- `time.time()` is replaced by integer seconds. `backoff_base` is whole milliseconds. No floating point is modelled.
- Configuration (`decouple.config`) is left out. `_infer_web_origin_and_referer` returns constants, and header dicts are left out.
- `_headers` and `headers or ...` are reduced to one flag: whether headers can be built. They can when non-empty explicit headers were given, no auth is needed, or a non-empty token is cached.
- `resp.json()` parsing is left out. A response carries an optional parsed body, with raw text as the fallback.
- Python's Unicode `\d`, `\D` and `str.strip` are left out. Only ASCII digits and ASCII whitespace are recognised.
- Pipeline.CollectAll: requires some page to be short. The source has no page cap, so without a short page it loops forever. The `page=`/`size=` keyword call in main.py:60-65 does not match the `filter_appointments_system` signature and would raise at runtime. The model follows the loop's intended logic, and the fetcher returns the page's item list directly. The fetcher cannot fail here. In the source a page request that raises `APIError` after its last retry (adastra_client.py:131), or on a body that is neither list nor dict (adastra_client.py:42), propagates out of `collect_all_appointments` (main.py:60), which has no `try`; the sweep ends and the pages already collected are lost. That failure path is not modelled.
- Pipeline.AssignedInterpreter: a row that is not a dict would make `row.get` raise `AttributeError` in the source. The model reads such a row's fields as None.
- Pipeline.InterpreterDetails: a non-dict "data" member, or a non-string truthy name part, would raise in the source. The model reads them as None or "".
- Pipeline.Decide: receives both lookup results as arguments. The source skips the lookups for unconfirmed or sign-language appointments. The lookups are pure functions here, so only the number of service calls differs, and that is not modelled.
- Pipeline.Decide: an appointment that is not a dict makes `appointment.get` raise `AttributeError` in the source (main.py:87), which aborts the whole of `group_appointments`. The model reads its fields as None, so such an appointment is skipped and grouping goes on.
- Pipeline.FoldIsFilter: `defaultdict` key order is not modelled, because groups are maps. List order under each key is modelled. Emails are keyed by structural equality of JSON values. Python's dict merges keys that compare equal, such as `1` and `True`, which the model keeps apart. It also raises `TypeError` on an unhashable key, such as a truthy list or dict email, which the model groups like any other value.
- Pipeline.GroupIsFilter: groups are keyed by structural equality of the email values. In the source, a truthy list or dict email raises `TypeError: unhashable` at main.py:135 and aborts `group_appointments`, and the keys `1` and `True` share one list. Neither behaviour is modelled.
- TextUs.SendReminder: a 201 reply whose body is not JSON would raise in `resp.json()`. A JSON body that is not a dict would raise in `data.get`, and a truthy "conversation" that is not a string would raise in `rsplit`. The model returns no conversation id in all three cases. The post cannot fail here: a `requests.post` that raises (textus_cleint.py:78) propagates out of `send_reminder` in the source, and that path is not modelled. The message templating and all `print` diagnostics are left out.
- Retry.Run: `max_retries` and `backoff_base` are natural numbers. A negative `AAC_MAX_RETRIES` makes the source loop run zero times, and `assert last_exc is not None` then raises `AssertionError`. A negative backoff can make the delay `backoff_base * 2**attempt + uniform(0, 0.25)` negative, and `time.sleep` then raises `ValueError` from inside the `except` block. Neither case is modelled.
- Graph.GetToken: a grant lacking `access_token` or `expires_in` would raise `KeyError`. That case is not modelled.
- JSON numbers are integers. Float values are not modelled.
- I/O and endpoints are left out, as they are glue: `main()`'s file writes and `json.dump`, `close_conversation`, `send_message`, `tag_message`, `get_account_detail_by_id`, `get_appointment`, and the dict wrapping in `filter_appointments_system`.

=== FILE: adastra.dfy ===
/**
  The scheduling-service client (adastra_client.py) minus its transport: the
  error type and its diagnostic text, the response-envelope normaliser, URL
  joining, and the token check after login. The retry loop is in module Retry.
 */
module AdAstra {
  import opened Wrappers
  import opened Json
  import opened Text

  /** The client's only exception type. */
  datatype ApiError = ApiError(message: string, statusCode: Option<int>, responseText: Option<string>)

  /** At most this many characters of a response body go into a diagnostic. */
  const BodyPreviewLimit: nat := 500

  /** `text[:500]`. */
  function Preview(text: string): (p: string)
    ensures |p| == if |text| <= BodyPreviewLimit then |text| else BodyPreviewLimit
    ensures StartsWith(text, p)
    ensures |text| <= BodyPreviewLimit ==> p == text
  {
    if |text| <= BodyPreviewLimit then text else text[..BodyPreviewLimit]
  }

  /** `if self.response_text:` -- a body is shown only when present and non-empty. */
  predicate HasBody(e: ApiError)
  {
    e.responseText.Some? && e.responseText.value != ""
  }

  function StatusTag(code: int): string
  {
    " [HTTP " + IntToString(code) + "]"
  }

  /** `str(APIError)`: the message, then the status tag when a status code is
      present, then " :: " and the body preview when a body is present. */
  function Describe(e: ApiError): (r: string)
    ensures StartsWith(r, e.message)
    ensures e.statusCode.Some? ==> StartsWith(r[|e.message|..], StatusTag(e.statusCode.value))
    ensures HasBody(e) ==> EndsWith(r, " :: " + Preview(e.responseText.value))
    ensures e.statusCode.None? && !HasBody(e) ==> r == e.message
    ensures |r| == |e.message|
                   + (if e.statusCode.Some? then |StatusTag(e.statusCode.value)| else 0)
                   + (if HasBody(e) then 4 + |Preview(e.responseText.value)| else 0)
  {
    var tag := if e.statusCode.Some? then StatusTag(e.statusCode.value) else "";
    var body := if HasBody(e) then " :: " + Preview(e.responseText.value) else "";
    ThreeParts(e.message, tag, body);
    e.message + tag + body
  }

  /** Where the three parts of a concatenation sit. */
  lemma ThreeParts(a: string, b: string, c: string)
    ensures StartsWith(a + b + c, a)
    ensures StartsWith((a + b + c)[|a|..], b)
    ensures EndsWith(a + b + c, c)
  {
    var r := a + b + c;
    assert r[..|a|] == a;
    assert r[|a|..] == b + c;
    assert (b + c)[..|b|] == b;
    assert r[|r| - |c|..] == c;
  }

  /** The diagnostic text does not depend on how long the body is: a body
      longer than the preview limit reads exactly like its first 500 characters. */
  lemma DescribeCutsBody(message: string, code: Option<int>, text: string)
    requires |text| > BodyPreviewLimit
    ensures Describe(ApiError(message, code, Some(text)))
         == Describe(ApiError(message, code, Some(text[..BodyPreviewLimit])))
    ensures |Describe(ApiError(message, code, Some(text)))|
         <= |message| + (if code.Some? then |StatusTag(code.value)| else 0) + 4 + BodyPreviewLimit
  {
  }

  // ------------------------------------------------------------ unwrapping

  /** The envelope keys `_unwrap_items` looks under, in the order it tries them. */
  const EnvelopeKeys: seq<string> := ["data", "results", "items"]

  const ShapeError := ApiError("Unexpected response shape; expected list or {'data': [...]}.", None, None)

  /** The list under the first of `keys` whose value is a list, if any. */
  function FirstListField(v: Value, keys: seq<string>): (r: Option<seq<Value>>)
    ensures r.None? <==> forall i :: 0 <= i < |keys| ==> !Get(v, keys[i]).JArr?
    ensures r.Some? ==> exists i :: 0 <= i < |keys| && Get(v, keys[i]) == JArr(r.value)
                                   && forall j :: 0 <= j < i ==> !Get(v, keys[j]).JArr?
  {
    if keys == [] then None
    else if Get(v, keys[0]).JArr? then Some(Get(v, keys[0]).items)
    else
      var r := FirstListField(v, keys[1..]);
      assert forall i :: 1 <= i < |keys| ==> keys[i] == keys[1..][i - 1];
      r
  }

  /** `_unwrap_items`: a list is returned as it is; a dict yields the list under
      its first list-valued envelope key, or else itself as a one-item list;
      anything else is a shape error. */
  function UnwrapItems(data: Value): (r: Result<seq<Value>, ApiError>)
    ensures data.JArr? ==> r == Success(data.items)
    ensures (data.JObj? && forall i :: 0 <= i < |EnvelopeKeys| ==> !Get(data, EnvelopeKeys[i]).JArr?)
              ==> r == Success([data])
    ensures forall i :: 0 <= i < |EnvelopeKeys| && data.JObj? && Get(data, EnvelopeKeys[i]).JArr?
              && (forall j :: 0 <= j < i ==> !Get(data, EnvelopeKeys[j]).JArr?)
              ==> r == Success(Get(data, EnvelopeKeys[i]).items)
    ensures r.Failure? <==> !data.JArr? && !data.JObj?
    ensures r.Failure? ==> r.error == ShapeError
  {
    if data.JArr? then Success(data.items)
    else if data.JObj? then
      match FirstListField(data, EnvelopeKeys)
      case Some(xs) => Success(xs)
      case None => Success([data])
    else Failure(ShapeError)
  }

  // ------------------------------------------------------------------- URLs

  function IsSlash(c: char): bool { c == '/' }

  /** The configured base URL with every trailing '/' removed (`rstrip("/")` in
      the constructor). */
  function BaseUrl(configured: string): (b: string)
    ensures StartsWith(configured, b)
    ensures b == [] || b[|b| - 1] != '/'
    ensures forall i :: |b| <= i < |configured| ==> configured[i] == '/'
  {
    TrimEnd(configured, IsSlash)
  }

  /** `_url`: the base followed by the path, with exactly one '/' put in front
      of the path when it does not already start with one. */
  function JoinPath(base: string, path: string): (r: string)
    ensures StartsWith(r, base)
    ensures |r| > |base| && r[|base|] == '/'
    ensures EndsWith(r, path)
    ensures |r| == |base| + |path| + (if StartsWith(path, "/") then 0 else 1)
  {
    var p := if StartsWith(path, "/") then path else "/" + path;
    assert (base + p)[..|base|] == base;
    assert (base + p)[|base + p| - |path|..] == path;
    base + p
  }

  /** The URL `_request` sends to: anything starting with "http" is taken as
      absolute and used unchanged, everything else is joined onto the base. */
  function TargetUrl(base: string, pathOrUrl: string): (r: string)
    ensures StartsWith(pathOrUrl, "http") ==> r == pathOrUrl
    ensures !StartsWith(pathOrUrl, "http") ==> StartsWith(r, base) && EndsWith(r, pathOrUrl)
                                                && |r| > |base| && r[|base|] == '/'
    ensures !StartsWith(pathOrUrl, "http") ==>
              |r| == |base| + |pathOrUrl| + (if StartsWith(pathOrUrl, "/") then 0 else 1)
  {
    if StartsWith(pathOrUrl, "http") then pathOrUrl else JoinPath(base, pathOrUrl)
  }

  /** Joining is insensitive to a leading '/': "x" and "/x" give the same URL,
      and with a base that has been `rstrip`ped no "//" appears at the seam. */
  lemma JoinPathLeadingSlash(configured: string, path: string)
    requires !StartsWith(path, "/")
    ensures JoinPath(BaseUrl(configured), "/" + path) == JoinPath(BaseUrl(configured), path)
    ensures var b := BaseUrl(configured);
            var r := JoinPath(b, path);
            b != [] ==> r[|b| - 1] != '/'
  {
    var b := BaseUrl(configured);
    assert StartsWith("/" + path, "/");
  }

  // ------------------------------------------------------------------ login

  /** What a successful request returns: the parsed JSON body, or the raw text
      when the body is not JSON. */
  datatype Payload = Parsed(value: Value) | RawText(text: string)

  const MissingTokenError := ApiError("Auth response did not include 'token'.", None, None)

  /** The token check in `login`: the login request's result must be a JSON
      dict with a truthy "token"; a failed request propagates its error
      unchanged, and a body that is not JSON has no token. */
  function LoginToken(response: Result<Payload, ApiError>): (r: Result<Value, ApiError>)
    ensures response.Failure? ==> r == Failure(response.error)
    ensures r.Success? <==> && response.Success? && response.value.Parsed?
                            && response.value.value.JObj? && Truthy(Get(response.value.value, "token"))
    ensures r.Success? ==> Truthy(r.value) && r.value == response.value.value.fields["token"]
    ensures response.Success? && r.Failure? ==> r.error == MissingTokenError
  {
    match response
    case Failure(e) => Failure(e)
    case Success(payload) =>
      var token := if payload.Parsed? && payload.value.JObj? then Get(payload.value, "token") else JNull;
      if Truthy(token) then Success(token) else Failure(MissingTokenError)
  }
}

=== FILE: graph.dfy ===
/**
  The token cache of the mail client (graph_client.py): a cached bearer token
  and its expiry, reused while more than 60 seconds remain and otherwise
  replaced through a client-credentials exchange. The clock reading and the
  exchange's answer are parameters; times are whole seconds.
 */
module Graph {
  import opened Wrappers

  /** The cached token (None before the first exchange) and its expiry time. */
  datatype TokenCache = TokenCache(token: Option<string>, expiresAt: int)

  /** What the identity endpoint answered: a token with its lifetime in seconds,
      or an HTTP error status (`raise_for_status`). */
  datatype Exchange = Granted(accessToken: string, expiresIn: int) | Refused(status: int)

  /** One `get_token` call: the cache afterwards, the token or the error, and
      whether the identity endpoint was called. */
  datatype TokenStep = TokenStep(cache: TokenCache, result: Result<string, int>, exchanged: bool)

  /** A token is reused only while more than this many seconds remain. */
  const SafetyMarginSeconds: int := 60

  /** The cache a new client starts with. */
  const Initial := TokenCache(None, 0)

  /** `self._token and (self._exp_ts - now > 60)`. */
  predicate Usable(c: TokenCache, now: int)
  {
    c.token.Some? && c.token.value != "" && c.expiresAt - now > SafetyMarginSeconds
  }

  /** `get_token` at time `now`; `exchange` is consulted only on a refresh. */
  function GetToken(c: TokenCache, now: int, exchange: Exchange): (s: TokenStep)
    ensures !s.exchanged <==> Usable(c, now)
    ensures !s.exchanged ==> s.cache == c && s.result == Success(c.token.value)
    ensures s.exchanged && exchange.Granted? ==>
      && s.cache == TokenCache(Some(exchange.accessToken), now + exchange.expiresIn)
      && s.result == Success(exchange.accessToken)
    ensures s.exchanged && exchange.Refused? ==> s.cache == c && s.result == Failure(exchange.status)
    ensures s.result.Success? ==> s.cache.token == Some(s.result.value)
  {
    if Usable(c, now) then TokenStep(c, Success(c.token.value), false)
    else
      match exchange
      case Granted(token, expiresIn) => TokenStep(TokenCache(Some(token), now + expiresIn), Success(token), true)
      case Refused(status) => TokenStep(c, Failure(status), true)
  }

  /** A new client always calls the identity endpoint on its first request. */
  lemma FirstCallExchanges(now: int, exchange: Exchange)
    ensures GetToken(Initial, now, exchange).exchanged
  {
  }

  /** A sequence of `get_token` calls: the clock reading and the exchange
      answer available for each. */
  datatype TokenCall = TokenCall(now: int, exchange: Exchange)

  /** The cache after the calls, and how many of them called the endpoint.
      Calls that never reach the endpoint leave the cache as it was. */
  function Calls(c: TokenCache, rs: seq<TokenCall>): (p: (TokenCache, nat))
    ensures p.1 <= |rs|
    ensures p.1 == 0 ==> p.0 == c
    decreases |rs|
  {
    if rs == [] then (c, 0)
    else
      var s := GetToken(c, rs[0].now, rs[0].exchange);
      var rest := Calls(s.cache, rs[1..]);
      (rest.0, rest.1 + (if s.exchanged then 1 else 0))
  }

  /** Once a non-empty token has been granted at time `t0` for `e` seconds,
      every later call made while more than 60 seconds of it remain reuses it:
      the calls make no exchange and leave the cache as it was. */
  lemma {:induction false} CachedTokenReused(token: string, t0: int, e: int, rs: seq<TokenCall>)
    requires token != ""
    requires forall i :: 0 <= i < |rs| ==> t0 + e - rs[i].now > SafetyMarginSeconds
    ensures Calls(TokenCache(Some(token), t0 + e), rs) == (TokenCache(Some(token), t0 + e), 0)
    decreases |rs|
  {
    if rs != [] {
      CachedTokenReused(token, t0, e, rs[1..]);
    }
  }

  /** From a fresh client, a first call granted a non-empty token followed by
      calls that all fall inside its safety margin make exactly one exchange. */
  lemma {:induction false} OneExchangeWhileValid(first: TokenCall, rs: seq<TokenCall>)
    requires first.exchange.Granted? && first.exchange.accessToken != ""
    requires forall i :: 0 <= i < |rs| ==>
      first.now + first.exchange.expiresIn - rs[i].now > SafetyMarginSeconds
    ensures Calls(Initial, [first] + rs).1 == 1
  {
    var c := TokenCache(Some(first.exchange.accessToken), first.now + first.exchange.expiresIn);
    assert ([first] + rs)[1..] == rs;
    CachedTokenReused(first.exchange.accessToken, first.now, first.exchange.expiresIn, rs);
  }

  /** Within the last 60 seconds (or after expiry) the cached token is replaced
      even though one is present; a failed exchange leaves the cache intact. */
  lemma RefreshNearExpiry(c: TokenCache, now: int, exchange: Exchange)
    requires c.expiresAt - now <= SafetyMarginSeconds
    ensures GetToken(c, now, exchange).exchanged
    ensures exchange.Refused? ==> GetToken(c, now, exchange).cache == c
  {
  }
}

=== FILE: json.dfy ===
/**
  The JSON-like values the HTTP clients pass around (what `resp.json()` yields in
  Python), with Python's `dict.get` and truthiness on them.
  Python's `None` is `JNull`; numbers are integers (floats are not modelled).
 */
module Json {

  datatype Value =
    | JNull
    | JBool(b: bool)
    | JNum(n: int)
    | JStr(s: string)
    | JArr(items: seq<Value>)
    | JObj(fields: map<string, Value>)

  /** `v.get(key)`: the value stored under `key`, or `None` when absent.
      On a value that is not a dict Python raises; the model answers `None`. */
  function Get(v: Value, key: string): Value
  {
    if v.JObj? && key in v.fields then v.fields[key] else JNull
  }

  /** Python's truth value: None, False, 0, "", [] and {} are false. */
  predicate Truthy(v: Value)
  {
    match v
    case JNull => false
    case JBool(b) => b
    case JNum(n) => n != 0
    case JStr(s) => |s| > 0
    case JArr(xs) => |xs| > 0
    case JObj(m) => |m| > 0
  }

  /** Python's `v or fallback`. */
  function Or(v: Value, fallback: Value): Value
  {
    if Truthy(v) then v else fallback
  }
}

=== FILE: pipeline.dfy ===
/**
  The glue in main.py: the pagination sweep over the appointment filter
  endpoint, the assigned-interpreter lookup, the interpreter's contact details,
  and the grouping of appointments into on-site and virtual reminders keyed by
  interpreter email. Every service call is an abstract function.
 */
module Pipeline {
  import opened Wrappers
  import opened Json
  import opened Text

  // ------------------------------------------------------------ pagination

  /** Items requested per page. */
  const PageSize: nat := 100

  datatype PageRequest = PageRequest(page: nat, size: nat)

  /** Pages 1..n of `fetch`, concatenated in order. */
  function Pages(fetch: (nat, nat) -> seq<Value>, n: nat): seq<Value>
  {
    if n == 0 then [] else Pages(fetch, n - 1) + fetch(n, PageSize)
  }

  /** Page `p` came back with at least a full page of items, so the sweep goes on. */
  predicate FullPage(fetch: (nat, nat) -> seq<Value>, p: nat)
  {
    |fetch(p, PageSize)| >= PageSize
  }

  /** `collect_all_appointments`: request pages 1, 2, ... of size 100 until a
      page comes back empty or short. `fetch(page, size)` is the item list of
      that page. The sweep only ends if some page is short, which the source
      takes for granted. */
  method CollectAll(fetch: (nat, nat) -> seq<Value>)
    returns (all: seq<Value>, requests: seq<PageRequest>)
    requires exists n: nat :: n >= 1 && !FullPage(fetch, n)
    ensures |requests| >= 1
    ensures forall i :: 0 <= i < |requests| ==> requests[i] == PageRequest(i + 1, PageSize)
    ensures forall p :: 1 <= p < |requests| ==> FullPage(fetch, p)
    ensures !FullPage(fetch, |requests|)
    ensures all == Pages(fetch, |requests|)
  {
    ghost var stop: nat :| stop >= 1 && !FullPage(fetch, stop);
    all := [];
    requests := [];
    var page: nat := 1;
    while true
      invariant 1 <= page <= stop
      invariant |requests| == page - 1
      invariant forall i :: 0 <= i < |requests| ==> requests[i] == PageRequest(i + 1, PageSize)
      invariant forall p :: 1 <= p < page ==> FullPage(fetch, p)
      invariant all == Pages(fetch, page - 1)
      decreases stop - page
    {
      var items := fetch(page, PageSize);
      requests := requests + [PageRequest(page, PageSize)];
      if |items| == 0 {
        assert Pages(fetch, page) == all + [];
        break;
      }
      all := all + items;
      if |items| < PageSize {
        break;
      }
      page := page + 1;
    }
  }

  // -------------------------------------------------- assigned interpreter

  predicate IsAssigned(row: Value)
  {
    Get(row, "assignStatusName") == JStr("Assign")
  }

  /** No row before `n` has status "Assign". */
  predicate NoneAssignedBefore(rows: seq<Value>, n: nat)
    requires n <= |rows|
  {
    forall j :: 0 <= j < n ==> !IsAssigned(rows[j])
  }

  /** Index of the first row whose status is "Assign". */
  function FirstAssigned(rows: seq<Value>): (r: Option<nat>)
    ensures r.Some? ==> r.value < |rows| && IsAssigned(rows[r.value]) && NoneAssignedBefore(rows, r.value)
    ensures r.None? <==> NoneAssignedBefore(rows, |rows|)
  {
    if rows == [] then None
    else if IsAssigned(rows[0]) then Some(0)
    else
      match FirstAssigned(rows[1..])
      case None => None
      case Some(i) => Some(i + 1)
  }

  /** The "fK_Interpreter" of the first "Assign" row, or `None` (JNull). */
  function AssignedIn(rows: seq<Value>): (r: Value)
    ensures NoneAssignedBefore(rows, |rows|) ==> r == JNull
    ensures forall i :: 0 <= i < |rows| && IsAssigned(rows[i]) && NoneAssignedBefore(rows, i)
                        ==> r == Get(rows[i], "fK_Interpreter")
  {
    var first := FirstAssigned(rows);
    if first.None? then JNull else Get(rows[first.value], "fK_Interpreter")
  }

  /** `get_assigned_interpreter_for_assignment`: `lookup` is what the
      interpreters call returned (`None` when it raised). A failed call or a
      result that is not a list gives `None` (JNull). */
  function AssignedInterpreter(lookup: Option<Value>): (r: Value)
    ensures (lookup.None? || !lookup.value.JArr?) ==> r == JNull
    ensures lookup.Some? && lookup.value.JArr? && NoneAssignedBefore(lookup.value.items, |lookup.value.items|) ==>
              r == JNull
    ensures forall i :: lookup.Some? && lookup.value.JArr? && 0 <= i < |lookup.value.items|
                        && IsAssigned(lookup.value.items[i]) && NoneAssignedBefore(lookup.value.items, i)
                        ==> r == Get(lookup.value.items[i], "fK_Interpreter")
  {
    if lookup.None? || !lookup.value.JArr? then JNull
    else AssignedIn(lookup.value.items)
  }

  // ------------------------------------------------------- contact details

  datatype Details = Details(email: Value, phone: Value, name: Value)

  /** `(x or '')` for a name part; a part that is not a string counts as empty. */
  function NamePart(v: Value): string
  {
    if v.JStr? then v.s else ""
  }

  /** The full name: both parts stripped, joined by one space, stripped again,
      so that a missing part leaves no stray space. */
  function FullName(first: string, last: string): (r: string)
    ensures Stripped(r)
    ensures Strip(first) == [] ==> r == Strip(last)
    ensures Strip(last) == [] ==> r == Strip(first)
    ensures Strip(first) != [] && Strip(last) != [] ==> r == Strip(first) + " " + Strip(last)
  {
    StripAroundSpace(Strip(first), Strip(last));
    Strip(Strip(first) + " " + Strip(last))
  }

  /** `resp.get("data", resp)`: the account record inside the response. */
  function AccountRecord(resp: Value): Value
  {
    if resp.JObj? && "data" in resp.fields then resp.fields["data"] else resp
  }

  /** `get_interpreter_details`: `account` is what the account call returned
      (`None` when it raised, giving no email, phone or name). The fields are
      read from the "data" member when present, else from the response itself. */
  function InterpreterDetails(account: Option<Value>): (d: Details)
    ensures account.None? ==> d == Details(JNull, JNull, JNull)
    ensures account.Some? && account.value.JObj? && "data" in account.value.fields ==>
      && d.email == Get(account.value.fields["data"], "email")
      && d.phone == Get(account.value.fields["data"], "phoneNumber")
    ensures account.Some? && !(account.value.JObj? && "data" in account.value.fields) ==>
      && d.email == Get(account.value, "email")
      && d.phone == Get(account.value, "phoneNumber")
    ensures account.Some? ==>
      var first := Strip(NamePart(Get(AccountRecord(account.value), "firstName")));
      var last := Strip(NamePart(Get(AccountRecord(account.value), "lastName")));
      && d.name.JStr? && Stripped(d.name.s)
      && (first == [] ==> d.name.s == last)
      && (last == [] ==> d.name.s == first)
      && (first != [] && last != [] ==> d.name.s == first + " " + last)
  {
    match account
    case None => Details(JNull, JNull, JNull)
    case Some(resp) =>
      var data := AccountRecord(resp);
      Details(Get(data, "email"), Get(data, "phoneNumber"),
              JStr(FullName(NamePart(Get(data, "firstName")), NamePart(Get(data, "lastName")))))
  }

  /** Wrapping an account record in a "data" envelope changes nothing: the
      record is read the same way directly or from inside the envelope. */
  lemma DataEnvelopeTransparent(record: Value)
    requires record.JObj? && "data" !in record.fields
    ensures InterpreterDetails(Some(JObj(map["data" := record]))) == InterpreterDetails(Some(record))
  {
    assert AccountRecord(JObj(map["data" := record])) == record;
    assert AccountRecord(record) == record;
  }

  // -------------------------------------------------------------- grouping

  /** The service lookups grouping needs: interpreters for an appointment code,
      and the account details for an interpreter id (`None` when the call raised). */
  datatype Services = Services(interpreters: Value -> Option<Value>, accounts: Value -> Option<Value>)

  datatype VirtualInfo = VirtualInfo(virtualAddress: Value, callerNumber: Value, pin: Value)

  /** One reminder entry; `virtual` holds the meeting fields of a virtual one. */
  datatype Entry = Entry(code: Value, email: Value, phone: Value, interpreterName: Value,
                         startTime: Value, languageTo: Value, commType: Value,
                         virtual: Option<VirtualInfo>)

  datatype Decision = Skip | Keep(isVirtual: bool, entry: Entry)

  const Confirmed := JStr("Confirmed")
  const SignLanguage := JStr("American Sign Language")
  const OnSite := JStr("oc")

  function Assigned(a: Value, svc: Services): Value
  {
    AssignedInterpreter(svc.interpreters(Get(a, "code")))
  }

  function DetailsOf(a: Value, svc: Services): Details
  {
    InterpreterDetails(svc.accounts(Assigned(a, svc)))
  }

  /** The filter of `group_appointments` on one appointment, given its assigned
      interpreter and that interpreter's details: confirmed, not sign language,
      with an assigned interpreter who has an email. */
  predicate Admits(a: Value, interpreter: Value, details: Details)
  {
    && Get(a, "statusName") == Confirmed
    && Get(a, "languageTo") != SignLanguage
    && Truthy(interpreter)
    && Truthy(details.email)
  }

  /** The same filter, with the lookups made through the services. */
  predicate Eligible(a: Value, svc: Services)
  {
    Admits(a, Assigned(a, svc), DetailsOf(a, svc))
  }

  /** The loop body of `group_appointments` for one appointment, given the
      results of its two lookups. */
  function Decide(a: Value, interpreter: Value, details: Details): (d: Decision)
    ensures d.Keep? <==> Admits(a, interpreter, details)
    ensures d.Keep? ==> (d.isVirtual <==> Get(a, "fK_CommunicationType") != OnSite)
    ensures d.Keep? ==> d.entry.email == details.email && d.entry.code == Get(a, "code")
    ensures d.Keep? ==> d.entry.phone == details.phone && d.entry.interpreterName == details.name
    ensures d.Keep? ==> && d.entry.startTime == Get(a, "startTime")
                        && d.entry.languageTo == Get(a, "languageTo")
                        && d.entry.commType == Get(a, "fK_CommunicationType")
    ensures d.Keep? ==> (d.entry.virtual.Some? <==> d.isVirtual)
    ensures d.Keep? && d.isVirtual ==>
      var v := d.entry.virtual.value;
      && Truthy(v.virtualAddress) && Truthy(v.callerNumber) && Truthy(v.pin)
      && (Truthy(Get(a, "virtualAddress")) ==> v.virtualAddress == Get(a, "virtualAddress"))
      && (!Truthy(Get(a, "virtualAddress")) ==> v.virtualAddress == JStr("NO LINK"))
      && (Truthy(Get(a, "callerNumber")) ==> v.callerNumber == Get(a, "callerNumber"))
      && (!Truthy(Get(a, "callerNumber")) ==> v.callerNumber == JStr("NO NUMBER"))
      && (Truthy(Get(a, "pin")) ==> v.pin == Get(a, "pin"))
      && (!Truthy(Get(a, "pin")) ==> v.pin == JStr("NO PIN"))
  {
    var status := Get(a, "statusName");
    var languageTo := Get(a, "languageTo");
    if status != Confirmed || languageTo == SignLanguage then Skip
    else
      var commType := Get(a, "fK_CommunicationType");
      var isVirtual := commType != OnSite;
      if !Truthy(interpreter) then Skip
      else if !Truthy(details.email) then Skip
      else
        var virtual := if isVirtual then
            Some(VirtualInfo(Or(Get(a, "virtualAddress"), JStr("NO LINK")),
                             Or(Get(a, "callerNumber"), JStr("NO NUMBER")),
                             Or(Get(a, "pin"), JStr("NO PIN"))))
          else None;
        Keep(isVirtual, Entry(Get(a, "code"), details.email, details.phone, details.name,
                              Get(a, "startTime"), languageTo, commType, virtual))
  }

  /** The decision for one appointment with its lookups made through the services. */
  function DecideWith(a: Value, svc: Services): Decision
  {
    Decide(a, Assigned(a, svc), DetailsOf(a, svc))
  }

  /** The two `defaultdict(list)`s: on-site and virtual entries by email. */
  datatype Groups = Groups(onSite: map<Value, seq<Entry>>, virtual: map<Value, seq<Entry>>)

  /** `grouped[email]` of a defaultdict: the list, or [] when the key is absent. */
  function Lookup(g: map<Value, seq<Entry>>, email: Value): seq<Entry>
  {
    if email in g then g[email] else []
  }

  function Append(g: map<Value, seq<Entry>>, email: Value, e: Entry): map<Value, seq<Entry>>
  {
    g[email := Lookup(g, email) + [e]]
  }

  /** The decision for each appointment, in order. */
  function Decisions(apps: seq<Value>, svc: Services): (ds: seq<Decision>)
    ensures |ds| == |apps|
    ensures forall i :: 0 <= i < |apps| ==> ds[i] == DecideWith(apps[i], svc)
  {
    seq(|apps|, i requires 0 <= i < |apps| => DecideWith(apps[i], svc))
  }

  /** Appending decisions one by one to the two defaultdicts, left to right. */
  function Fold(ds: seq<Decision>): Groups
  {
    if ds == [] then Groups(map[], map[])
    else
      var g := Fold(ds[..|ds| - 1]);
      match ds[|ds| - 1]
      case Skip => g
      case Keep(isVirtual, e) =>
        if isVirtual then Groups(g.onSite, Append(g.virtual, e.email, e))
        else Groups(Append(g.onSite, e.email, e), g.virtual)
  }

  /** `group_appointments`: the fold of `Decide` over the appointments. */
  function Group(apps: seq<Value>, svc: Services): Groups
  {
    Fold(Decisions(apps, svc))
  }

  /** Each interpreter's lists hold exactly its kept entries of that kind, in
      input order, and an interpreter is a key only with a non-empty list. */
  lemma GroupIsFilter(apps: seq<Value>, svc: Services, email: Value)
    ensures Lookup(Group(apps, svc).virtual, email) == Selected(Decisions(apps, svc), true, email)
    ensures Lookup(Group(apps, svc).onSite, email) == Selected(Decisions(apps, svc), false, email)
    ensures email in Group(apps, svc).virtual ==> Group(apps, svc).virtual[email] != []
    ensures email in Group(apps, svc).onSite ==> Group(apps, svc).onSite[email] != []
  {
    var ds := Decisions(apps, svc);
    FoldIsFilter(ds, email);
    FoldKeysNonEmpty(ds);
  }

  /** The entry of `d` if it is kept, routed to `virtual`'s side, under `email`. */
  function Pick(d: Decision, virtual: bool, email: Value): seq<Entry>
  {
    if d.Keep? && d.isVirtual == virtual && d.entry.email == email then [d.entry] else []
  }

  /** The reference definition: the kept entries routed to `virtual`'s side
      whose interpreter email is `email`, in input order. */
  function Selected(ds: seq<Decision>, virtual: bool, email: Value): seq<Entry>
  {
    if ds == [] then [] else Pick(ds[0], virtual, email) + Selected(ds[1..], virtual, email)
  }

  lemma {:induction false} SelectedAppend(ds: seq<Decision>, d: Decision, virtual: bool, email: Value)
    ensures Selected(ds + [d], virtual, email) == Selected(ds, virtual, email) + Pick(d, virtual, email)
    decreases |ds|
  {
    if ds == [] {
      assert [d][1..] == [];
      assert Selected([d], virtual, email) == Pick(d, virtual, email) + [];
    } else {
      var rest := ds[1..];
      assert (ds + [d])[1..] == rest + [d];
      SelectedAppend(rest, d, virtual, email);
      var p := Pick(ds[0], virtual, email);
      assert Selected(ds + [d], virtual, email) == p + (Selected(rest, virtual, email) + Pick(d, virtual, email));
    }
  }

  /** Folding is filtering: for every email, the on-site and the virtual list
      hold exactly that interpreter's kept entries of that kind, in order. */
  lemma {:induction false} FoldIsFilter(ds: seq<Decision>, email: Value)
    ensures Lookup(Fold(ds).virtual, email) == Selected(ds, true, email)
    ensures Lookup(Fold(ds).onSite, email) == Selected(ds, false, email)
    decreases |ds|
  {
    if ds != [] {
      var init := ds[..|ds| - 1];
      var d := ds[|ds| - 1];
      assert ds == init + [d];
      FoldIsFilter(init, email);
      SelectedAppend(init, d, true, email);
      SelectedAppend(init, d, false, email);
    }
  }

  /** A key appears in a group only once an entry has been appended under it. */
  lemma {:induction false} FoldKeysNonEmpty(ds: seq<Decision>)
    ensures forall email :: email in Fold(ds).virtual ==> Fold(ds).virtual[email] != []
    ensures forall email :: email in Fold(ds).onSite ==> Fold(ds).onSite[email] != []
    decreases |ds|
  {
    if ds != [] {
      FoldKeysNonEmpty(ds[..|ds| - 1]);
    }
  }

  lemma {:induction false} SelectedWitness(ds: seq<Decision>, virtual: bool, email: Value, k: nat)
    requires k < |Selected(ds, virtual, email)|
    ensures exists i :: 0 <= i < |ds| && ds[i].Keep? && ds[i].isVirtual == virtual
                        && ds[i].entry.email == email && ds[i].entry == Selected(ds, virtual, email)[k]
    decreases |ds|
  {
    var head := Pick(ds[0], virtual, email);
    var tail := Selected(ds[1..], virtual, email);
    assert Selected(ds, virtual, email) == head + tail;
    if k >= |head| {
      SelectedWitness(ds[1..], virtual, email, k - |head|);
      var i :| 0 <= i < |ds[1..]| && ds[1..][i].Keep? && ds[1..][i].isVirtual == virtual
               && ds[1..][i].entry.email == email && ds[1..][i].entry == tail[k - |head|];
      assert ds[i + 1] == ds[1..][i];
    }
  }

  /** Every virtual entry under `email` comes from an eligible, non-on-site
      appointment whose interpreter has that email (and likewise on-site). */
  lemma GroupedEntriesAreEligible(apps: seq<Value>, svc: Services, virtual: bool, email: Value, k: nat)
    requires k < |Lookup(if virtual then Group(apps, svc).virtual else Group(apps, svc).onSite, email)|
    ensures exists i :: 0 <= i < |apps| && Eligible(apps[i], svc)
                        && (Get(apps[i], "fK_CommunicationType") != OnSite <==> virtual)
                        && DetailsOf(apps[i], svc).email == email
                        && DecideWith(apps[i], svc).entry
                           == Lookup(if virtual then Group(apps, svc).virtual else Group(apps, svc).onSite, email)[k]
  {
    var ds := Decisions(apps, svc);
    FoldIsFilter(ds, email);
    SelectedWitness(ds, virtual, email, k);
  }
}

=== FILE: retry.dfy ===
/**
  The retry loop of `AdAstraClient._request`, with the network replaced by a
  function from attempt number to what that attempt produced, and
  `time.sleep` replaced by a recorded list of delays (milliseconds).

  As written, every failure inside the `try` is retried: server errors and
  429, but also every other 4xx and a missing login token. Only exhaustion
  ends the loop with an error, and that error carries no status code.
 */
module Retry {
  import opened Wrappers
  import opened Json
  import opened AdAstra

  /** What one transport call produced: a response, or a raised exception. */
  datatype Attempt =
    | Response(status: int, text: string, json: Option<Value>)
    | Raised(message: string)

  /** An exception caught by the loop's `except Exception`. */
  datatype Cause = Api(error: ApiError) | Transport(message: string)

  /** The outcome of one pass through the `try` block. */
  datatype Trial = Succeeded(payload: Payload) | Failed(cause: Cause)

  /** `_max_retries` and `_backoff_base` (the latter in milliseconds). */
  datatype RetryPolicy = RetryPolicy(maxRetries: nat, backoffBaseMs: nat)

  /** One logical request: verb, final URL, and whether headers can be built
      (explicit headers were given, no auth is needed, or a token is cached). */
  datatype Call = Call(verb: string, url: string, headersReady: bool)

  /** The loop's result, how many attempts it made and the delays it slept. */
  datatype Outcome = Outcome(result: Result<Payload, ApiError>, attempts: nat, sleeps: seq<nat>)

  const NotAuthenticated := ApiError("Not authenticated; call .login() first.", None, None)

  /** Upper end of `random.uniform(0, 0.25)`, in milliseconds. */
  const MaxJitterMs: nat := 250

  /** How an HTTP status is treated: retryable, rejected, or accepted. */
  datatype StatusClass = RetryableStatus | RejectedStatus | AcceptedStatus

  function Classify(status: int): (c: StatusClass)
    ensures c == RetryableStatus <==> status == 429 || status >= 500
    ensures c == RejectedStatus <==> 400 <= status < 500 && status != 429
    ensures c == AcceptedStatus <==> status < 400
  {
    if status == 429 || status >= 500 then RetryableStatus
    else if status >= 400 then RejectedStatus
    else AcceptedStatus
  }

  /** `str(exc)` for a caught exception. */
  function CauseText(c: Cause): string
  {
    match c
    case Api(e) => Describe(e)
    case Transport(m) => m
  }

  /** One pass through the `try` block. */
  function TryOnce(headersReady: bool, a: Attempt): (t: Trial)
    ensures !headersReady ==> t == Failed(Api(NotAuthenticated))
    ensures headersReady && a.Raised? ==> t == Failed(Transport(a.message))
    ensures headersReady && a.Response? ==> (t.Succeeded? <==> a.status < 400)
    ensures headersReady && a.Response? && t.Failed? ==>
      && t.cause.Api?
      && t.cause.error.statusCode == Some(a.status)
      && t.cause.error.responseText == Some(a.text)
      && (t.cause.error.message == "Retryable error" <==> a.status == 429 || a.status >= 500)
      && (t.cause.error.message == "Request failed" <==> 400 <= a.status < 500 && a.status != 429)
    ensures t.Succeeded? ==>
      && a.Response?
      && t.payload == (if a.json.Some? then Parsed(a.json.value) else RawText(a.text))
  {
    if !headersReady then Failed(Api(NotAuthenticated))
    else match a
      case Raised(m) => Failed(Transport(m))
      case Response(status, text, json) =>
        match Classify(status)
        case RetryableStatus => Failed(Api(ApiError("Retryable error", Some(status), Some(text))))
        case RejectedStatus => Failed(Api(ApiError("Request failed", Some(status), Some(text))))
        case AcceptedStatus => Succeeded(if json.Some? then Parsed(json.value) else RawText(text))
  }

  /** Attempt `k` of a call. */
  function TrialAt(call: Call, transport: nat -> Attempt, k: nat): Trial
  {
    TryOnce(call.headersReady, transport(k))
  }

  function Pow2(i: nat): (p: nat)
    ensures p >= 1
  {
    if i == 0 then 1 else 2 * Pow2(i - 1)
  }

  /** The deterministic part of the sleep after failed attempt `i`. */
  function Backoff(policy: RetryPolicy, i: nat): nat
  {
    policy.backoffBaseMs * Pow2(i)
  }

  /** The error raised once every attempt has failed. */
  function Exhausted(call: Call, last: Cause): (e: ApiError)
    ensures e.statusCode.None? && e.responseText.None?
    ensures Text.StartsWith(e.message, call.verb + " " + call.url)
    ensures Text.EndsWith(e.message, " failed after retries: " + CauseText(last))
  {
    var head := call.verb + " " + call.url;
    var tail := " failed after retries: " + CauseText(last);
    var m := head + tail;
    assert m[..|head|] == head;
    assert m[|m| - |tail|..] == tail;
    ApiError(m, None, None)
  }

  /** The backoff doubles from one failed attempt to the next. */
  lemma BackoffDoubles(policy: RetryPolicy, i: nat)
    ensures Backoff(policy, i + 1) == 2 * Backoff(policy, i)
  {
    assert Pow2(i + 1) == 2 * Pow2(i);
  }

  /** The loop from attempt `attempt` on: the first success ends it, a failure
      before the last allowed attempt is followed by a sleep, and a failure on
      the last allowed attempt ends it with `Exhausted`. */
  function Run(call: Call, policy: RetryPolicy, transport: nat -> Attempt, jitter: nat -> nat,
               attempt: nat): (o: Outcome)
    requires attempt <= policy.maxRetries
    ensures attempt < o.attempts <= policy.maxRetries + 1
    ensures |o.sleeps| == o.attempts - attempt - 1
    decreases policy.maxRetries - attempt
  {
    match TrialAt(call, transport, attempt)
    case Succeeded(v) => Outcome(Success(v), attempt + 1, [])
    case Failed(c) =>
      if attempt >= policy.maxRetries then Outcome(Failure(Exhausted(call, c)), attempt + 1, [])
      else
        var rest := Run(call, policy, transport, jitter, attempt + 1);
        Outcome(rest.result, rest.attempts, [Backoff(policy, attempt) + jitter(attempt)] + rest.sleeps)
  }

  /** The sleep after failed attempt `i` is `backoff_base * 2^i` plus jitter. */
  lemma {:induction false} RunSleeps(call: Call, policy: RetryPolicy, transport: nat -> Attempt,
                                     jitter: nat -> nat, attempt: nat)
    requires attempt <= policy.maxRetries
    ensures forall k :: 0 <= k < |Run(call, policy, transport, jitter, attempt).sleeps| ==>
      Run(call, policy, transport, jitter, attempt).sleeps[k] == Backoff(policy, attempt + k) + jitter(attempt + k)
    decreases policy.maxRetries - attempt
  {
    var o := Run(call, policy, transport, jitter, attempt);
    if TrialAt(call, transport, attempt).Failed? && attempt < policy.maxRetries {
      RunSleeps(call, policy, transport, jitter, attempt + 1);
      var rest := Run(call, policy, transport, jitter, attempt + 1);
      assert o.sleeps == [Backoff(policy, attempt) + jitter(attempt)] + rest.sleeps;
      forall k | 0 <= k < |o.sleeps|
        ensures o.sleeps[k] == Backoff(policy, attempt + k) + jitter(attempt + k)
      {
        if k > 0 {
          assert o.sleeps[k] == rest.sleeps[k - 1];
        }
      }
    }
  }

  /** Every attempt before the last one made failed; the last one made either
      succeeded, giving the result, or was the last one allowed, giving
      `Exhausted`. */
  lemma {:induction false} RunMeaning(call: Call, policy: RetryPolicy, transport: nat -> Attempt,
                                      jitter: nat -> nat, attempt: nat)
    requires attempt <= policy.maxRetries
    ensures var o := Run(call, policy, transport, jitter, attempt);
      && (forall k :: attempt <= k < o.attempts - 1 ==> TrialAt(call, transport, k).Failed?)
      && (o.result.Success? <==> TrialAt(call, transport, o.attempts - 1).Succeeded?)
      && (o.result.Success? ==> o.result.value == TrialAt(call, transport, o.attempts - 1).payload)
      && (o.result.Failure? ==>
            && o.attempts == policy.maxRetries + 1
            && o.result.error == Exhausted(call, TrialAt(call, transport, policy.maxRetries).cause))
    decreases policy.maxRetries - attempt
  {
    if TrialAt(call, transport, attempt).Failed? && attempt < policy.maxRetries {
      RunMeaning(call, policy, transport, jitter, attempt + 1);
    }
  }

  /** `whole` is what remains after `done`, with the sleeps so far in front. */
  ghost predicate Continues(whole: Outcome, done: seq<nat>, rest: Outcome)
  {
    whole == Outcome(rest.result, rest.attempts, done + rest.sleeps)
  }

  /** A successful attempt ends the loop with its payload. */
  lemma StepSucceeded(call: Call, policy: RetryPolicy, transport: nat -> Attempt, jitter: nat -> nat,
                      attempt: nat, whole: Outcome, done: seq<nat>)
    requires attempt <= policy.maxRetries
    requires Continues(whole, done, Run(call, policy, transport, jitter, attempt))
    requires TrialAt(call, transport, attempt).Succeeded?
    ensures whole == Outcome(Success(TrialAt(call, transport, attempt).payload), attempt + 1, done)
  {
    assert done + [] == done;
  }

  /** A failure on the last allowed attempt ends the loop with `Exhausted`. */
  lemma StepExhausted(call: Call, policy: RetryPolicy, transport: nat -> Attempt, jitter: nat -> nat,
                      attempt: nat, whole: Outcome, done: seq<nat>)
    requires attempt == policy.maxRetries
    requires Continues(whole, done, Run(call, policy, transport, jitter, attempt))
    requires TrialAt(call, transport, attempt).Failed?
    ensures whole == Outcome(Failure(Exhausted(call, TrialAt(call, transport, attempt).cause)), attempt + 1, done)
  {
    assert done + [] == done;
  }

  /** A failure before the last allowed attempt sleeps and moves on. */
  lemma StepRetried(call: Call, policy: RetryPolicy, transport: nat -> Attempt, jitter: nat -> nat,
                    attempt: nat, whole: Outcome, done: seq<nat>)
    requires attempt < policy.maxRetries
    requires Continues(whole, done, Run(call, policy, transport, jitter, attempt))
    requires TrialAt(call, transport, attempt).Failed?
    ensures Continues(whole, done + [Backoff(policy, attempt) + jitter(attempt)],
                      Run(call, policy, transport, jitter, attempt + 1))
  {
    var rest := Run(call, policy, transport, jitter, attempt + 1);
    var pause := Backoff(policy, attempt) + jitter(attempt);
    assert done + ([pause] + rest.sleeps) == (done + [pause]) + rest.sleeps;
  }

  /** The attempt loop of `_request` for an already chosen URL. */
  method Attempts(call: Call, policy: RetryPolicy, transport: nat -> Attempt, jitter: nat -> nat)
    returns (result: Result<Payload, ApiError>, attempts: nat, sleeps: seq<nat>)
    ensures Outcome(result, attempts, sleeps) == Run(call, policy, transport, jitter, 0)
  {
    ghost var whole := Run(call, policy, transport, jitter, 0);
    var attempt: nat := 0;
    var last: Option<Cause> := None;
    sleeps := [];
    assert Continues(whole, sleeps, whole);
    while true
      invariant attempt <= policy.maxRetries
      invariant Continues(whole, sleeps, Run(call, policy, transport, jitter, attempt))
      decreases policy.maxRetries - attempt
    {
      var t := TryOnce(call.headersReady, transport(attempt));
      if t.Succeeded? {
        StepSucceeded(call, policy, transport, jitter, attempt, whole, sleeps);
        result, attempts := Success(t.payload), attempt + 1;
        break;
      }
      last := Some(t.cause);
      if attempt >= policy.maxRetries {
        StepExhausted(call, policy, transport, jitter, attempt, whole, sleeps);
        result, attempts := Failure(Exhausted(call, last.value)), attempt + 1;
        break;
      }
      StepRetried(call, policy, transport, jitter, attempt, whole, sleeps);
      var pause: nat := Backoff(policy, attempt) + jitter(attempt);
      sleeps := sleeps + [pause];
      attempt := attempt + 1;
    }
  }

  /** `_request`: choose the URL, then run the attempt loop. */
  method Request(base: string, verb: string, pathOrUrl: string, headersReady: bool,
                 policy: RetryPolicy, transport: nat -> Attempt, jitter: nat -> nat)
    returns (result: Result<Payload, ApiError>, attempts: nat, sleeps: seq<nat>)
    requires forall k :: jitter(k) <= MaxJitterMs
    ensures Outcome(result, attempts, sleeps)
         == Run(Call(verb, TargetUrl(base, pathOrUrl), headersReady), policy, transport, jitter, 0)
    ensures |sleeps| == attempts - 1 <= policy.maxRetries
    ensures forall k :: 0 <= k < |sleeps| ==>
      Backoff(policy, k) <= sleeps[k] <= Backoff(policy, k) + MaxJitterMs
    ensures result.Failure? ==> attempts == policy.maxRetries + 1 && result.error.statusCode.None?
  {
    var call := Call(verb, TargetUrl(base, pathOrUrl), headersReady);
    result, attempts, sleeps := Attempts(call, policy, transport, jitter);
    SleepsBounded(call, policy, transport, jitter);
  }

  /** With jitter drawn from [0, 250] ms, the sleep after failed attempt `i` is
      between `backoff_base * 2^i` and 250 ms more; a failure always comes
      after every allowed attempt and carries no status code. */
  lemma SleepsBounded(call: Call, policy: RetryPolicy, transport: nat -> Attempt, jitter: nat -> nat)
    requires forall k :: jitter(k) <= MaxJitterMs
    ensures var o := Run(call, policy, transport, jitter, 0);
      && (forall k :: 0 <= k < |o.sleeps| ==>
            Backoff(policy, k) <= o.sleeps[k] <= Backoff(policy, k) + MaxJitterMs)
      && (o.result.Failure? ==> o.attempts == policy.maxRetries + 1 && o.result.error.statusCode.None?)
  {
    RunMeaning(call, policy, transport, jitter, 0);
    RunSleeps(call, policy, transport, jitter, 0);
  }

  // ------------------------------------------------------------- properties

  /** If the first `k` attempts fail and attempt `k` succeeds (within the
      allowed attempts), the call succeeds with that payload after exactly `k`
      sleeps, the i-th of them `backoff_base * 2^i` plus jitter. */
  lemma SuccessAfterFailures(call: Call, policy: RetryPolicy, transport: nat -> Attempt,
                             jitter: nat -> nat, k: nat)
    requires k <= policy.maxRetries
    requires forall i :: 0 <= i < k ==> TrialAt(call, transport, i).Failed?
    requires TrialAt(call, transport, k).Succeeded?
    ensures var o := Run(call, policy, transport, jitter, 0);
            && o.result == Success(TrialAt(call, transport, k).payload)
            && o.attempts == k + 1
            && |o.sleeps| == k
            && forall i :: 0 <= i < k ==> o.sleeps[i] == Backoff(policy, i) + jitter(i)
  {
    RunMeaning(call, policy, transport, jitter, 0);
    RunSleeps(call, policy, transport, jitter, 0);
  }

  /** As written, a 4xx other than 429 is retried like any failure: a 404
      followed by a 200 succeeds on the second attempt after one sleep. */
  lemma ClientErrorIsRetried(policy: RetryPolicy, url: string, v: Value, jitter: nat -> nat)
    requires policy.maxRetries >= 1
    ensures var transport := (k: nat) => if k == 0 then Response(404, "not found", None)
                                         else Response(200, "", Some(v));
            var o := Run(Call("GET", url, true), policy, transport, jitter, 0);
            o.result == Success(Parsed(v)) && o.attempts == 2 && |o.sleeps| == 1
  {
    var transport := (k: nat) => if k == 0 then Response(404, "not found", None)
                                 else Response(200, "", Some(v));
    var call := Call("GET", url, true);
    assert TrialAt(call, transport, 0).Failed?;
    SuccessAfterFailures(call, policy, transport, jitter, 1);
  }

  /** Without a token the transport is never consulted: every attempt fails
      with the not-authenticated error and the loop runs to exhaustion. */
  lemma MissingTokenExhausts(verb: string, url: string, policy: RetryPolicy,
                             transport: nat -> Attempt, jitter: nat -> nat)
    ensures var o := Run(Call(verb, url, false), policy, transport, jitter, 0);
            && o.attempts == policy.maxRetries + 1
            && |o.sleeps| == policy.maxRetries
            && o.result == Failure(Exhausted(Call(verb, url, false), Api(NotAuthenticated)))
  {
    RunMeaning(Call(verb, url, false), policy, transport, jitter, 0);
  }

  /** Every way to fail ends in the same shape of error: it names the verb and
      URL, and it has no status code even when the last response had one. */
  lemma ExhaustionHidesStatus(call: Call, policy: RetryPolicy, transport: nat -> Attempt,
                              jitter: nat -> nat)
    requires forall i :: 0 <= i <= policy.maxRetries ==> TrialAt(call, transport, i).Failed?
    ensures var o := Run(call, policy, transport, jitter, 0);
            && o.result.Failure?
            && o.attempts == policy.maxRetries + 1
            && o.result.error.statusCode.None?
            && Text.StartsWith(o.result.error.message, call.verb + " " + call.url)
  {
    RunMeaning(call, policy, transport, jitter, 0);
  }
}

=== FILE: text.dfy ===
/**
  String helpers shared by the clients: Python's `str.strip`/`rstrip`,
  `startswith`, `re.sub(r"\D", "", s)`, `sep.join(xs)` and `str(int)`.
  Characters are compared as code points; only ASCII whitespace and ASCII
  digits are recognised.
 */
module Text {

  /** The ASCII characters Python's `str.isspace()` accepts. */
  predicate IsSpace(c: char)
  {
    var n := c as int;
    n == 32 || 9 <= n <= 13 || 28 <= n <= 31
  }

  predicate IsDigit(c: char)
  {
    '0' <= c <= '9'
  }

  predicate AllDigits(s: string)
  {
    forall i :: 0 <= i < |s| ==> IsDigit(s[i])
  }

  predicate StartsWith(s: string, prefix: string)
  {
    |prefix| <= |s| && s[..|prefix|] == prefix
  }

  predicate EndsWith(s: string, suffix: string)
  {
    |suffix| <= |s| && s[|s| - |suffix|..] == suffix
  }

  // ---------------------------------------------------------------- stripping

  /** `s.rstrip(chars)`: drops the longest suffix made only of `drop` characters. */
  function TrimEnd(s: string, drop: char -> bool): (r: string)
    ensures |r| <= |s| && r == s[..|r|]
    ensures r == [] || !drop(r[|r| - 1])
    ensures forall i :: |r| <= i < |s| ==> drop(s[i])
  {
    if |s| > 0 && drop(s[|s| - 1]) then TrimEnd(s[..|s| - 1], drop) else s
  }

  /** `s.lstrip(chars)`: drops the longest prefix made only of `drop` characters. */
  function TrimStart(s: string, drop: char -> bool): (r: string)
    ensures |r| <= |s| && r == s[|s| - |r|..]
    ensures r == [] || !drop(r[0])
    ensures forall i :: 0 <= i < |s| - |r| ==> drop(s[i])
  {
    if |s| > 0 && drop(s[0]) then
      var r := TrimStart(s[1..], drop);
      assert s[1..][|s| - 1 - |r|..] == s[|s| - |r|..];
      r
    else s
  }

  /** Neither end is whitespace: what `str.strip()` leaves behind. */
  predicate Stripped(s: string)
  {
    s == [] || (!IsSpace(s[0]) && !IsSpace(s[|s| - 1]))
  }

  /** `s.strip()` with no argument. */
  function Strip(s: string): (r: string)
    ensures Stripped(r)
    ensures |r| <= |s|
  {
    var e := TrimEnd(s, IsSpace);
    var r := TrimStart(e, IsSpace);
    assert r != [] ==> r[|r| - 1] == e[|e| - 1];
    r
  }

  /** Stripping a string whose ends are not whitespace changes nothing. */
  lemma {:induction false} StripKeepsStripped(s: string)
    requires Stripped(s)
    ensures Strip(s) == s
  {
    assert TrimEnd(s, IsSpace) == s;
    assert TrimStart(s, IsSpace) == s;
  }

  /** Stripping `a + " " + b` with both parts already stripped drops the space
      exactly when one of the parts is empty. */
  lemma {:induction false} StripAroundSpace(a: string, b: string)
    requires Stripped(a) && Stripped(b)
    ensures Strip(a + " " + b) ==
      if a == [] then b else if b == [] then a else a + " " + b
  {
    var s := a + " " + b;
    if a == [] && b == [] {
      assert s == " ";
      assert s[..0] == [];
      assert TrimEnd(s, IsSpace) == TrimEnd([], IsSpace) == [];
    } else if a == [] {
      assert s[|s| - 1] == b[|b| - 1];
      assert TrimEnd(s, IsSpace) == s;
      assert s[1..] == b;
      assert TrimStart(s, IsSpace) == TrimStart(b, IsSpace) == b;
    } else if b == [] {
      assert s[..|s| - 1] == a;
      assert TrimEnd(s, IsSpace) == TrimEnd(a, IsSpace) == a;
      StripKeepsStripped(a);
    } else {
      assert s[0] == a[0] && s[|s| - 1] == b[|b| - 1];
      StripKeepsStripped(s);
    }
  }

  // ------------------------------------------------------------------ digits

  /** `re.sub(r"\D", "", s)`: the digits of `s`, in order. */
  function KeepDigits(s: string): (r: string)
    ensures AllDigits(r)
    ensures |r| <= |s|
  {
    if s == [] then []
    else (if IsDigit(s[0]) then [s[0]] else []) + KeepDigits(s[1..])
  }

  lemma {:induction false} KeepDigitsAppend(a: string, b: string)
    ensures KeepDigits(a + b) == KeepDigits(a) + KeepDigits(b)
    decreases |a|
  {
    if a != [] {
      assert (a + b)[1..] == a[1..] + b;
      KeepDigitsAppend(a[1..], b);
    } else {
      assert a + b == b;
    }
  }

  /** A string of digits is its own digit extraction. */
  lemma {:induction false} KeepDigitsOfDigits(s: string)
    requires AllDigits(s)
    ensures KeepDigits(s) == s
    decreases |s|
  {
    if s != [] {
      KeepDigitsOfDigits(s[1..]);
    }
  }

  /** Whitespace holds no digits, so stripping does not change the digits. */
  lemma {:induction false} KeepDigitsIgnoresStrip(s: string)
    ensures KeepDigits(Strip(s)) == KeepDigits(s)
  {
    var e := TrimEnd(s, IsSpace);
    KeepDigitsTrimEnd(s);
    KeepDigitsTrimStart(e);
  }

  lemma {:induction false} KeepDigitsTrimEnd(s: string)
    ensures KeepDigits(TrimEnd(s, IsSpace)) == KeepDigits(s)
  {
    var e := TrimEnd(s, IsSpace);
    var tail := s[|e|..];
    forall i | 0 <= i < |tail| ensures IsSpace(tail[i]) {
      assert tail[i] == s[|e| + i];
    }
    NoDigitsInSpace(tail);
    assert s == e + tail;
    KeepDigitsAppend(e, tail);
  }

  lemma {:induction false} KeepDigitsTrimStart(s: string)
    ensures KeepDigits(TrimStart(s, IsSpace)) == KeepDigits(s)
  {
    var r := TrimStart(s, IsSpace);
    var head := s[..|s| - |r|];
    forall i | 0 <= i < |head| ensures IsSpace(head[i]) {
      assert head[i] == s[i];
    }
    NoDigitsInSpace(head);
    assert s == head + r;
    KeepDigitsAppend(head, r);
  }

  lemma {:induction false} NoDigitsInSpace(s: string)
    requires forall i :: 0 <= i < |s| ==> IsSpace(s[i])
    ensures KeepDigits(s) == []
    decreases |s|
  {
    if s != [] {
      NoDigitsInSpace(s[1..]);
    }
  }

  // ----------------------------------------------------------------- joining

  /** `sep.join(xs)`. */
  function Join(sep: string, xs: seq<string>): string
  {
    if |xs| == 0 then ""
    else if |xs| == 1 then xs[0]
    else xs[0] + sep + Join(sep, xs[1..])
  }

  /** Where part `i` starts in `Join(sep, xs)`: the parts before it and one
      separator after each of them. */
  function Offset(sep: string, xs: seq<string>, i: nat): nat
    requires i <= |xs|
  {
    if i == 0 then 0 else Offset(sep, xs, i - 1) + |xs[i - 1]| + |sep|
  }

  lemma {:induction false} OffsetOfTail(sep: string, xs: seq<string>, i: nat)
    requires 1 <= i <= |xs|
    ensures Offset(sep, xs, i) == |xs[0]| + |sep| + Offset(sep, xs[1..], i - 1)
  {
    if i > 1 {
      OffsetOfTail(sep, xs, i - 1);
    }
  }

  /** Part `i` of `Join(sep, xs)` sits at `Offset(i)` and, unless it is the
      last part, is followed by one separator. */
  lemma {:induction false} JoinPlacesPart(sep: string, xs: seq<string>, i: nat)
    requires i < |xs|
    ensures Offset(sep, xs, i) + |xs[i]| <= |Join(sep, xs)|
    ensures Join(sep, xs)[Offset(sep, xs, i)..Offset(sep, xs, i) + |xs[i]|] == xs[i]
    ensures i < |xs| - 1 ==>
      && Offset(sep, xs, i) + |xs[i]| + |sep| <= |Join(sep, xs)|
      && Join(sep, xs)[Offset(sep, xs, i) + |xs[i]|..Offset(sep, xs, i) + |xs[i]| + |sep|] == sep
    decreases i
  {
    if |xs| > 1 {
      var t := xs[1..];
      var jt := Join(sep, t);
      assert Join(sep, xs) == xs[0] + sep + jt;
      if i == 0 {
        HeadThenSep(xs[0], sep, jt);
      } else {
        JoinPlacesPart(sep, t, i - 1);
        OffsetOfTail(sep, xs, i);
        assert t[i - 1] == xs[i];
        var o := Offset(sep, t, i - 1);
        PartAfterHead(xs[0], sep, jt, o, t[i - 1]);
        if i < |xs| - 1 {
          PartAfterHead(xs[0], sep, jt, o + |t[i - 1]|, sep);
        }
      }
    }
  }

  /** `head + sep + tail` starts with `head`, then `sep`. */
  lemma HeadThenSep(head: string, sep: string, tail: string)
    ensures (head + sep + tail)[0..|head|] == head
    ensures (head + sep + tail)[|head|..|head| + |sep|] == sep
  {
  }

  /** A piece of the tail of `head + sep + tail` sits `|head| + |sep|` further on. */
  lemma PartAfterHead(head: string, sep: string, tail: string, o: nat, x: string)
    requires o + |x| <= |tail| && tail[o..o + |x|] == x
    ensures |head| + |sep| + o + |x| <= |head + sep + tail|
    ensures (head + sep + tail)[|head| + |sep| + o..|head| + |sep| + o + |x|] == x
  {
    var w := head + sep + tail;
    assert w[|head| + |sep|..] == tail;
  }

  /** `Join` adds exactly one separator between consecutive parts. */
  lemma {:induction false} JoinLength(sep: string, xs: seq<string>)
    requires |xs| >= 1
    ensures |Join(sep, xs)| == Offset(sep, xs, |xs| - 1) + |xs[|xs| - 1]|
    decreases |xs|
  {
    if |xs| > 1 {
      JoinLength(sep, xs[1..]);
      OffsetOfTail(sep, xs, |xs| - 1);
    }
  }

  // ---------------------------------------------------------------- numerals

  function DigitChar(d: nat): (c: char)
    requires d < 10
    ensures IsDigit(c)
  {
    (48 + d) as char
  }

  function DigitValue(c: char): nat
    requires IsDigit(c)
  {
    c as int - 48
  }

  /** `str(n)` for a non-negative integer: decimal, no leading zero. */
  function NatToString(n: nat): (r: string)
    ensures |r| >= 1 && AllDigits(r)
    ensures r[0] == '0' ==> r == "0"
  {
    if n < 10 then [DigitChar(n)] else NatToString(n / 10) + [DigitChar(n % 10)]
  }

  /** The value of a decimal numeral (the inverse of `NatToString`). */
  function ParseNat(s: string): nat
    requires AllDigits(s)
  {
    if s == [] then 0 else ParseNat(s[..|s| - 1]) * 10 + DigitValue(s[|s| - 1])
  }

  lemma {:induction false} ParseNatToString(n: nat)
    ensures ParseNat(NatToString(n)) == n
  {
    var r := NatToString(n);
    if n >= 10 {
      ParseNatToString(n / 10);
      assert r[..|r| - 1] == NatToString(n / 10);
    }
  }

  /** `str(i)` (an f-string field) for any integer. */
  function IntToString(i: int): (r: string)
    ensures |r| >= 1
    ensures i < 0 <==> r[0] == '-'
    ensures i >= 0 ==> AllDigits(r) && ParseNat(r) == i
    ensures i < 0 ==> AllDigits(r[1..]) && ParseNat(r[1..]) == -i
  {
    if i < 0 then
      ParseNatToString(-i);
      var d := NatToString(-i);
      assert ("-" + d)[1..] == d;
      "-" + d
    else
      ParseNatToString(i);
      NatToString(i)
  }
}

=== FILE: textus.dfy ===
/**
  The SMS client (textus_cleint.py): US phone normalisation to E.164, the
  English list join of reminder times, and the early exit and conversation-id
  extraction of `send_reminder`. The HTTP post is an abstract function.
 */
module TextUs {
  import opened Wrappers
  import opened Json
  import opened Text

  /** "+1" followed by exactly ten ASCII digits (`\+1\d{10}`). */
  predicate IsE164Us(s: string)
  {
    |s| == 12 && s[0] == '+' && s[1] == '1' && AllDigits(s[2..])
  }

  /** Whether a digit string can be read as a US number: ten digits, or eleven
      starting with the country code 1. */
  predicate UsDigits(d: string)
  {
    |d| == 10 || (|d| == 11 && d[0] == '1')
  }

  /** `to_e164_us`: empty or missing input gives None; a stripped input already
      in E.164 form is returned; otherwise the input's digits are used when
      there are ten, or eleven starting with 1. */
  function ToE164Us(phone: Option<string>): (r: Option<string>)
    ensures phone.None? || phone.value == "" ==> r.None?
    ensures phone.Some? && IsE164Us(Strip(phone.value)) ==> r == Some(Strip(phone.value))
    ensures r.Some? ==> IsE164Us(r.value)
  {
    if phone.None? || phone.value == "" then None
    else
      var s := Strip(phone.value);
      if IsE164Us(s) then Some(s)
      else
        var digits := KeepDigits(s);
        if |digits| == 11 && digits[0] == '1' then Some("+" + digits)
        else if |digits| == 10 then Some("+1" + digits)
        else None
  }

  /** An E.164 US number's digits are everything after the '+'. */
  lemma E164Digits(s: string)
    requires IsE164Us(s)
    ensures KeepDigits(s) == s[1..]
  {
    assert s == [s[0]] + s[1..];
    KeepDigitsAppend([s[0]], s[1..]);
    assert AllDigits(s[1..]);
    KeepDigitsOfDigits(s[1..]);
  }

  /** Normalisation depends only on the digits of the input: it succeeds
      exactly when they are ten, or eleven starting with 1, and the result is
      "+1" and the last ten digits. The already-E.164 shortcut in the source
      gives the same answer the digit rule would. */
  lemma {:induction false} ToE164UsByDigits(phone: string)
    requires phone != ""
    ensures var d := KeepDigits(phone);
            && (ToE164Us(Some(phone)).Some? <==> UsDigits(d))
            && (UsDigits(d) ==> ToE164Us(Some(phone)) == Some("+1" + d[|d| - 10..]))
  {
    var s := Strip(phone);
    KeepDigitsIgnoresStrip(phone);
    var d := KeepDigits(s);
    if IsE164Us(s) {
      E164Digits(s);
      assert s == "+1" + d[1..];
    } else if |d| == 11 && d[0] == '1' {
      assert "+" + d == "+1" + d[1..];
    }
  }

  /** Normalising an already normalised number returns it unchanged. */
  lemma ToE164UsIdempotent(phone: Option<string>)
    requires ToE164Us(phone).Some?
    ensures ToE164Us(ToE164Us(phone)) == ToE164Us(phone)
  {
    var r := ToE164Us(phone).value;
    assert !IsSpace(r[0]) && !IsSpace(r[11]);
    StripKeepsStripped(r);
    assert Strip(r) == r && IsE164Us(r);
  }

  /** Text without digits is not a phone number. */
  lemma ToE164UsRejectsLetters()
    ensures ToE164Us(Some("abc")) == None
  {
    ToE164UsByDigits("abc");
    assert KeepDigits("abc") == KeepDigits("bc") == KeepDigits("c") == [];
  }

  // ------------------------------------------------------------ time lists

  /** The English join of `_format_times`: "", "a", "a and b", "a, b and c". */
  function JoinTimes(xs: seq<string>): (r: string)
    ensures |xs| == 0 ==> r == ""
    ensures |xs| == 1 ==> r == xs[0]
    ensures |xs| >= 2 ==> r == Join(", ", xs[..|xs| - 1]) + " and " + xs[|xs| - 1]
  {
    if |xs| == 0 then ""
    else if |xs| == 1 then xs[0]
    else if |xs| == 2 then xs[0] + " and " + xs[1]
    else Join(", ", xs[..|xs| - 1]) + " and " + xs[|xs| - 1]
  }

  /** `_format_times` with the per-time formatting abstracted as `fmt`. */
  function FormatTimes(times: seq<string>, fmt: string -> string): (r: string)
    ensures r == "" <==> |times| == 0 || (|times| == 1 && fmt(times[0]) == "")
    ensures |times| == 1 ==> r == fmt(times[0])
    ensures |times| >= 2 ==>
      var formatted := seq(|times|, i requires 0 <= i < |times| => fmt(times[i]));
      r == Join(", ", formatted[..|times| - 1]) + " and " + fmt(times[|times| - 1])
  {
    JoinTimes(seq(|times|, i requires 0 <= i < |times| => fmt(times[i])))
  }

  /** The join keeps every item, in order: item i (i < n - 1) sits at its
      ", "-join offset, and the last item ends the text right after " and ". */
  lemma JoinTimesKeepsOrder(xs: seq<string>)
    requires |xs| >= 2
    ensures var front := xs[..|xs| - 1];
            var r := JoinTimes(xs);
            && |r| == |Join(", ", front)| + 5 + |xs[|xs| - 1]|
            && (forall i :: 0 <= i < |xs| - 1 ==>
                  && Offset(", ", front, i) + |xs[i]| <= |r|
                  && r[Offset(", ", front, i)..Offset(", ", front, i) + |xs[i]|] == xs[i])
            && r[|r| - |xs[|xs| - 1]|..] == xs[|xs| - 1]
            && r[|r| - |xs[|xs| - 1]| - 5..|r| - |xs[|xs| - 1]|] == " and "
  {
    var front := xs[..|xs| - 1];
    var j := Join(", ", front);
    var r := JoinTimes(xs);
    forall i | 0 <= i < |xs| - 1
      ensures Offset(", ", front, i) + |xs[i]| <= |r|
      ensures r[Offset(", ", front, i)..Offset(", ", front, i) + |xs[i]|] == xs[i]
    {
      JoinPlacesPart(", ", front, i);
      assert r[..|j|] == j;
    }
  }

  // ------------------------------------------------------------ send_reminder

  /** The text after the last '/' (`rsplit("/", 1)[-1]`). */
  function LastSegment(s: string): (r: string)
    ensures EndsWith(s, r)
    ensures forall i :: 0 <= i < |r| ==> r[i] != '/'
    ensures |r| < |s| ==> s[|s| - |r| - 1] == '/'
  {
    if s == [] || s[|s| - 1] == '/' then []
    else
      var r := LastSegment(s[..|s| - 1]);
      assert s[..|s| - 1][|s| - 1 - |r|..] == s[|s| - 1 - |r|..|s| - 1];
      r + [s[|s| - 1]]
  }

  /** The messaging service's reply to the send request. */
  datatype PostReply = PostReply(status: int, body: Value)

  /** What `send_reminder` did: the number it posted to (None when it returned
      before posting) and the conversation id it returned. */
  datatype Sent = Sent(postedTo: Option<string>, conversationId: Option<string>)

  /** `send_reminder`, with `post(to)` standing for the POST of the message. */
  function SendReminder(phone: Option<string>, post: string -> PostReply): (o: Sent)
    ensures o.postedTo.None? <==> ToE164Us(phone).None?
    ensures o.postedTo.Some? ==> o.postedTo == ToE164Us(phone) && IsE164Us(o.postedTo.value)
    ensures o.conversationId.Some? ==>
      && o.postedTo.Some?
      && post(o.postedTo.value).status == 201
      && var path := Get(post(o.postedTo.value).body, "conversation");
         && path.JStr? && path.s != ""
         && EndsWith(path.s, o.conversationId.value)
         && forall i :: 0 <= i < |o.conversationId.value| ==> o.conversationId.value[i] != '/'
    ensures o.postedTo.Some? && post(o.postedTo.value).status != 201 ==> o.conversationId.None?
    ensures o.postedTo.Some? && post(o.postedTo.value).status == 201 ==>
      var path := Get(post(o.postedTo.value).body, "conversation");
      (path.JStr? && path.s != "" ==> o.conversationId == Some(LastSegment(path.s)))
      && (!path.JStr? || path.s == "" ==> o.conversationId.None?)
  {
    match ToE164Us(phone)
    case None => Sent(None, None)
    case Some(to) =>
      var reply := post(to);
      if reply.status == 201 then
        var path := Get(reply.body, "conversation");
        if path.JStr? && path.s != "" then Sent(Some(to), Some(LastSegment(path.s)))
        else Sent(Some(to), None)
      else Sent(Some(to), None)
  }
}

=== FILE: wrappers.dfy ===
/** Option and Result, the two failure-carrying shapes the rest of the model uses. */
module Wrappers {

  /** Python's `None`-or-value, as a datatype. */
  datatype Option<+T> = None | Some(value: T)

  /** A value or the error a Python function would have raised instead. */
  datatype Result<+R, +E> = Success(value: R) | Failure(error: E)
}
